=== FILE: README.md ===
# Drawing analysis: a verified model of the `/pdf/analyze` handler

The service takes the text extracted from a technical drawing (a PDF) and
estimates what the part costs to make. `index.js` does this in one handler,
in the following steps:

1. It looks for an explicit weight (`2,5 kg`).
2. It collects every number in the text that looks like a measurement
   (`Ø?\d+[\.,]?\d*` followed by optional `mm`), parses each one, keeps the
   values in (0.2, 1500] and sorts them largest first. The first two or
   three values become the dimensions x1, x2 and x3; x3 defaults to 10.
3. It classifies the shape with an ordered list of rules, from the
   dimensions and from whether the diameter sign `Ø` appears:
   - Zylinder (cylinder);
   - Profil/Rohr (profile or tube);
   - Platte/Klotz (plate or block);
   - Standard.

   It then computes the volume of that shape.
4. It classifies the material by keywords in the lower-cased text:
   - aluminium;
   - edelstahl (stainless steel);
   - messing (brass);
   - kupfer (copper);
   - stahl (steel), the default.
5. It uses the explicit weight, or volume × density when there is none.
6. It stops with "Bauteil zu groß" (part too large) when the part is both
   over 50 kg and over 100 mm.
7. It prices the order:
   - material at a price per kg;
   - 2 machining minutes per kg at 35 €/h;
   - 90 € of fixed cost;
   - the total divided by the quantity, plus a 15 % margin.
8. It stops with "Preis zu hoch" (price too high) when the final unit price
   is over 10000.

The model takes the extracted text and the parsed quantity. `Pipeline.Analyze`
returns one of three outcomes:
- `Insufficient`: fewer than two measurements survived;
- `Escalated(TooLarge | TooExpensive, part, price)`: a review gate fired;
- `Full(part, cost, quantity)`: the complete estimate.

JavaScript numbers are modelled as mathematical reals. `NaN` is `None`.

Modules, in dependency order:
- `Wrappers`: `Option`.
- `Text`: the character classes of the regular expressions (`\d`, `\s`, the
  diameter marks), lower-casing, `includes`, and greedy digit runs.
- `Decimal`: digit values, `replace(",", ".")`, and `parseFloat` on the
  strings the scanners produce.
- `Dimensions`: the global measurement regex as a scanner, the range
  filter, the descending sort, and x1/x2/x3.
- `WeightScan`: the weight regex, the leftmost match and its value.
- `Rules`: a generic first-match rule list.
- `Geometry`: the shape rules and the volumes.
- `Materials`: the keyword rules and the density and price tables.
- `Pipeline`: weight, gates, quantity, costing, and the handler.
- `Scenarios`: worked examples on concrete inputs, including both gate
  boundaries.

## Behaviour that may surprise

Two consequences of the handler as written:

- **"Ø20mm 150mm"** gives `Insufficient`, not an oversize cylinder.
  - The measurement regex matches `Ø20` as one group, so `parseFloat` sees a
    leading `Ø` and yields `NaN`. The filter then drops the value.
  - Only 150 remains, and two values are required.
  - `Scenarios.MarkedDiameterIsLost` states this.
- **"40mm 40mm 40mm alu, 2.5 kg"** is a cylinder, not a plate or block.
  - The rule `x1 <= 50` comes first in the chain, and x1 is 40.
  - The measurement `2.5` also passes the range filter. It is the smallest
    value, so x3 stays 40.
  - `Scenarios.SmallCubeIsCylinder` states the classification for the
    dimensions (40, 40, 40) that this text yields.
  - `Scenarios.AluminiumEstimate` states the price for the 2.5 kg aluminium
    cylinder that this text yields: raw 1325/12 ≈ 110.42, final
    6095/48 ≈ 126.98.
  - These two lemmas start from the dimensions and the part; the scan of the
    text itself is not taken through by a lemma.

## Model

| member | source | states |
|---|---|---|
| Text.ToLower | index.js:59 | lower-casing keeps the length and maps each character on its own (Text.Lower): `A`–`Z` become `a`–`z`, the Kelvin sign becomes `k`, every other character (`Ä` and `Ø` among them) is kept, so no letter `A`–`Z` and no Kelvin sign remains. |
| Text.ToLowerIdempotent | index.js:59 | lower-casing twice is the same as lower-casing once. |
| Text.DigitRun | index.js:30 | the greedy `\d*` at a position: every character consumed is a digit, and the next one is not. |
| Text.IsSpace | index.js:24-30 | the characters ECMAScript's `\s` matches: tab, line feed, vertical tab, form feed, carriage return, space, no-break space, the Unicode space separators, line and paragraph separators, and the byte order mark (no ensures of its own). |
| Text.IsDiameterMark | index.js:30 | the characters the pattern's `Ø` matches under the `i` flag: U+00D8 and its lower-case form U+00F8 (no ensures of its own; partner Dimensions.ScanCatchesMarks). |
| Text.Contains | index.js:61-64 | `String.prototype.includes`: the keyword occurs as a contiguous block at some position of the text; used for the keyword tests and for the `Ø` test at index.js:43 (no ensures of its own; its partners follow). |
| Text.ContainsSingle | index.js:43 | a one-character keyword is included exactly when that character occurs in the text. |
| Text.ContainsInContext | index.js:61-64 | a keyword included in a text is still included once any text is put before and after it. |
| Decimal.DecimalValue | index.js:32 | the value of `a.b` lies in [a, a+1): the fraction digits never reach the next whole number. |
| Decimal.ReplaceComma | index.js:32 | `replace(",", ".")` changes exactly the first comma, keeps the length and changes nothing else. |
| Decimal.ParseFloat | index.js:32 | `parseFloat` yields a number exactly when the text starts with a digit or with `.digit`, and the number is never negative; a leading diameter mark gives NaN. |
| Decimal.ParseWhole | index.js:32 | `parseFloat` of a digit string is the whole number it spells. |
| Decimal.ParseDotted | index.js:32 | `parseFloat("a.b")` is the decimal a.b. |
| Decimal.CommaAndDotAgree | index.js:32 | `a,b` after comma replacement and `a.b` parse to the same number, a.b. |
| Dimensions.NumberEnd | index.js:30 | the greedy `\d+[\.,]?\d*` from a digit covers only digits and at most one separator, and cannot be extended. |
| Dimensions.MatchStartsAt | index.js:30 | where `Ø?\d+` can begin a match: a digit, or a diameter mark directly followed by a digit (no ensures of its own; partners Dimensions.ScanCoversDigits and Dimensions.ScanCatchesMarks). |
| Dimensions.NormaliseTwice | index.js:32 | replacing the first comma by a dot is idempotent on every token the pattern captures, since a token holds at most one separator. |
| Dimensions.SuffixEnd | index.js:30 | the optional `\s?(mm)?` after a number never swallows a digit or a diameter mark. |
| Dimensions.Scan | index.js:30 | `matchAll` yields groups inside the text, in order, without overlap. |
| Dimensions.ScanWellPlaced | index.js:30 | every captured group has the pattern's shape and is as long as the greedy match makes it. |
| Dimensions.ScanCoversDigits | index.js:30 | no digit of the text escapes the scan: each lies in some captured group. |
| Dimensions.ScanCatchesMarks | index.js:30 | matches are leftmost: a diameter mark directly before a digit always begins a captured group, so it can never be skipped over. |
| Dimensions.Tokens | index.js:30 | one token per match, each exactly the text slice its match covers, of the form optional mark, digit, then digits with at most one separator. |
| Dimensions.TokenOccurs | index.js:30 | each token occurs in the text at the position where its match starts, so `includes` finds it. |
| Dimensions.TokenValue | index.js:32 | a token parses to a number exactly when it starts with a digit; a token starting with `Ø`/`ø` is NaN. |
| Dimensions.WholeMeasureValue | index.js:32 | a token without separator stands for the whole number it spells. |
| Dimensions.SeparatedMeasureValue | index.js:32 | a token `a.b` or `a,b` stands for the decimal a.b, whichever separator it uses. |
| Dimensions.Candidates | index.js:30-32 | one parsed value per match, each the value of the token at the same position (Dimensions.TokenValue); NaN exactly for the tokens that start with a diameter mark. |
| Dimensions.KeepInRange | index.js:33 | each value in (0.2, 1500] is kept as often as it was parsed; NaN and everything else is dropped. |
| Dimensions.Insert | index.js:34 | inserting into a descending list keeps it descending and adds exactly the new value. |
| Dimensions.SortDesc | index.js:34 | the result is descending and a permutation of the input. |
| Dimensions.SortedUnique | index.js:34 | two descending lists with the same elements are equal, so any correct sort gives this result. |
| Dimensions.Measurements | index.js:30-34 | the surviving values: descending, all in range, and exactly the in-range parsed values with their multiplicities. |
| Dimensions.MeasurementsCharacterized | index.js:30-34 | any descending list of exactly the in-range parsed values is the measurement list. |
| Dimensions.ExtractDims | index.js:36-41 | no dimensions exactly when fewer than two values survive; otherwise x1 is the largest value and x2 the second; x3 is the third, or the default 10 when there are only two; x1 >= x2. |
| Rules.FirstMatch | index.js:43-56 | an ordered rule list answers with the first rule whose guard holds; no earlier guard holds; it answers None only when no guard holds. |
| Geometry.Label | index.js:40-56 | no shape is labelled "unbekannt": the initial placeholder never reaches a response. |
| Geometry.ClassifyShape | index.js:43-56 | the four shapes, each with the exact condition under which it is chosen: a diameter sign or x1 <= 50; else x1 > 3·x2; else both neighbouring differences below 100; else Standard. |
| Geometry.CylinderVolume | index.js:45-46 | a cylinder of diameter x1 and length x2 has volume π·x1²·x2/4000, positive for positive dimensions. |
| Geometry.BoxVolume | index.js:49-55 | the profile, plate and standard volume x1·x2·x3/1000, positive when all three dimensions are. |
| Geometry.Volume | index.js:43-56 | the cylinder volume is π·x1²·x2/4000 (x3 unused); the other shapes use x1·x2·x3/1000; the volume is positive for valid dimensions. |
| Materials.ClassifyMaterial | index.js:59-64 | the material, with the exact condition for each: aluminium on "alu" or "6082"; else stainless on "edelstahl" or "1.4301"; else brass on "messing" or "ms58"; else copper on "kupfer"; else steel. |
| Materials.Key | index.js:60-64 | the material name the handler reports: never empty. |
| Materials.KeyInjective | index.js:60-64 | two materials report the same name exactly when they are the same material. |
| Materials.ClassifyIgnoresCase | index.js:59-64 | classifying the lower-cased text gives the same material as classifying the text. |
| Materials.Density | index.js:66-72 | densities lie between 2.7 and 8.9. |
| Materials.PricePerKg | index.js:73-79 | prices per kg lie between 1.5 and 10. |
| WeightScan.MatchesAt | index.js:24 | the declarative match of `(\d+[\.,]\d+)\s?kg` with the `i` flag at p, its group being the text from p to k (no ensures of its own; the reference for WeightScan.MatchesAtIff, WeightScan.FindFrom and WeightScan.ExplicitWeight). |
| WeightScan.KgFollows | index.js:24 | `\s?kg` under the `i` flag at a position: `kg` in any case, directly or after one white-space character (no ensures of its own; part of WeightScan.MatchesAt). |
| WeightScan.SplitUnique | index.js:24 | a weight group splits at its separator in one place only. |
| WeightScan.MatchIsGreedy | index.js:24 | any match of the weight pattern at a position is the greedy one. |
| WeightScan.GreedyIsMatch | index.js:24 | the greedy attempt is a match when its pieces are present. |
| WeightScan.MatchesAtIff | index.js:24 | the pattern matches at a position exactly when the greedy attempt succeeds, and then only with that group. |
| WeightScan.TryAt | index.js:24 | the attempt at one position reports the unique match there, or that there is none. |
| WeightScan.FindFrom | index.js:24 | the leftmost match at or after a position: no earlier position matches, and None only when nothing matches. |
| WeightScan.GroupValue | index.js:26 | the weight group `a,b` or `a.b` parses to the decimal a.b, never negative. |
| WeightScan.ExplicitWeight | index.js:23-27 | no weight exactly when the pattern matches nowhere; otherwise the value of the leftmost match's group, never negative. |
| WeightScan.MatchNeedsSeparator | index.js:24 | every weight match holds a decimal separator with a digit on each side, strictly inside the matched number. |
| WeightScan.NoSeparatorNoWeight | index.js:24 | without a decimal separator there is no explicit weight ("2 kg" does not count). |
| Pipeline.EstimateWeight | index.js:81-83 | a non-zero explicit weight wins; a missing or zero one falls back to volume × density; the result is positive when its inputs are. |
| Pipeline.Inspect | index.js:22-83 | a part exactly when at least two measurements survive, with valid dimensions, the classified shape and material, the volume given by the shape's formula (Geometry.Volume) and positive, and the weight estimated from that volume, positive. |
| Pipeline.Max3 | index.js:85 | `Math.max` of three values is one of them and no smaller than any. |
| Pipeline.HasDiameterSign | index.js:43 | whether the text includes the capital `Ø`; with Pipeline.HasDiameterSignIff (no ensures of its own). |
| Pipeline.HasDiameterSignIff | index.js:43 | the sign is present exactly when U+00D8 occurs in the text; the small `ø` does not count. |
| Pipeline.Oversized | index.js:85 | the oversize gate: weight over 50 kg and the largest dimension over 100 mm (no ensures of its own; partner Pipeline.OversizedOnValid). |
| Pipeline.OversizedOnValid | index.js:85 | on valid dimensions, oversize exactly when the weight exceeds 50 and x1 exceeds 100. |
| Pipeline.Overpriced | index.js:108 | the price gate: the final unit price strictly above 10000 (no ensures of its own; its boundary is Scenarios.PriceLimitBoundary). |
| Pipeline.LargeMeansX1 | index.js:85 | on valid dimensions the largest of x1, x2, x3 exceeds 100 exactly when x1 does. |
| Pipeline.EffectiveQuantity | index.js:95 | a missing, non-numeric or zero quantity becomes 1; any other value, negatives included, is kept; the result is never 0. |
| Pipeline.Costing | index.js:98-106 | material cost, minutes and fixed cost by their formulas; raw price × quantity is the sum of the costs; final price = 1.15·(w·(p + 7/6) + 90)/q; at least 103.5/q for positive q, negative for negative q. |
| Pipeline.Hint | index.js:36-117 | exactly the escalated and insufficient outcomes carry an advisory text. |
| Pipeline.Analyze | index.js:36-129 | Insufficient exactly when too few measurements; TooLarge exactly when the part is oversize; TooExpensive only for a part that is not oversize and whose final price exceeds 10000, with that price; otherwise the full estimate at a price of at most 10000 for the effective quantity. |
| Pipeline.QuantityOnlyThroughEffective | index.js:95-106 | two requests whose quantities have the same effective value get the same answer. |
| Pipeline.MissingQuantityActsAsOne | index.js:95 | a missing or zero quantity is answered exactly as a quantity of 1. |
| Pipeline.OversizeIgnoresQuantity | index.js:85-95 | the quantity never changes whether a text is insufficient or oversize. |
| Pipeline.FullIsLightOrSmall | index.js:85-93 | a fully estimated part weighs at most 50 kg or has x1 at most 100 mm. |
| Pipeline.MoreUnitsNoDearer | index.js:105-106 | for positive quantities, a larger order never has a higher final unit price. |
| Pipeline.OverpriceIsMonotone | index.js:105-117 | if a positive quantity is escalated for its price, so is every smaller positive quantity. |
| Pipeline.NegativeQuantityNeverOverpriced | index.js:95-117 | a negative quantity is never escalated for price, and its full estimate has a negative price. |
| Scenarios.MarkedTextScan | index.js:30 | in "Ø20mm 150mm" the matches are `Ø20` and `150`. |
| Scenarios.MarkedDiameterIsLost | index.js:30-38 | "Ø20mm 150mm" yields Insufficient: the marked value is NaN. |
| Scenarios.DefaultThirdCanExceedSecond | index.js:41 | "5 3" gives x1 = 5, x2 = 3, x3 = 10: the default third dimension can exceed x2. |
| Scenarios.CommaExample | index.js:32 | "12,5" and "12.5" both parse to 12.5. |
| Scenarios.SmallCubeIsCylinder | index.js:43-52 | 40 × 40 × 40 without a diameter sign is a cylinder. |
| Scenarios.AluminiumEstimate | index.js:81-129 | 2.5 kg of aluminium for one piece: 17.50 material, 5 min, 35/12 machining, 90 fixed, final 6095/48. |
| Scenarios.FiftyKilogramsPass | index.js:85 | exactly 50 kg never triggers the oversize gate. |
| Scenarios.JustOverBothLimits | index.js:85 | 50.01 kg with x1 = 100.01 triggers it. |
| Scenarios.PriceLimitBoundary | index.js:108 | a final price of exactly 10000 passes; 10000.01 is escalated. |

## Left out

- HTTP handling is not modelled: Express, multer, CORS and `app.listen`. The
  request becomes the parameters `text` and `quantity`.
- `pdf-parse` is outside the model: the extracted text is the input.
- The image-annotation client is constructed at start-up but never called by
  the handler.
- `zielpreis` (the target price) is only echoed back, so it is not modelled.
- The response is not modelled as JSON: `toFixed` rounding and the field
  names are out. Outcomes carry exact reals, and `Pipeline.Hint` gives the
  advisory texts.
- The 500 error path (a missing upload, a PDF that fails to parse) belongs to
  the I/O layer that is not modelled.
- Floating point is not modelled:
  - arithmetic is on exact reals, so rounding in the volume, weight and price
    formulas is not;
  - `Math.PI` is the constant `Geometry.Pi`.
- Pipeline.EffectiveQuantity receives `parseInt`'s result, with `None` for NaN.
  `parseInt`'s own string parsing is not modelled.
- Text.ToLower: only A–Z and the Kelvin sign (U+212A, which lower-cases to
  `k`) are mapped. The only other mapping that yields an ASCII letter is
  `İ` (U+0130), which lower-cases to `i` followed by U+0307; that combining
  dot always follows the `i`, so it cannot complete "messing", the only
  keyword with an `i`. No mapping changes the digits or the `.` of "1.4301". Text is a
  sequence of code points; UTF-16 surrogate pairs are not modelled.
- Decimal.ParseFloat is modelled only on text made of digits, dots and
  diameter marks, because that is all the scanners hand it. Signs, exponents,
  "Infinity" and leading white space are out.
- Dimensions.Scan: the `i` flag is modelled. `mm` matches in any case, and
  the mark matches both `Ø` and `ø`, as the case-insensitive regex does.
  `text.includes("Ø")` remains case-sensitive (`Pipeline.HasDiameterSign`).
- Materials.Density: the contract bounds the density table (2.7 to 8.9); the
  individual entries are the table itself and are not restated as a contract.
- Materials.PricePerKg: the contract bounds the price table (1.5 to 10); the
  individual entries are the table itself and are not restated as a contract.

=== FILE: decimal.dfy ===
/**
 * Decimal numbers as the handler reads them: `s.replace(",", ".")` followed by
 * `parseFloat`. JavaScript doubles are modelled as exact `real`s.
 */
module Decimal {
  import opened Wrappers
  import opened Text

  function Pow10(n: nat): (p: nat)
    ensures p >= 1
  {
    if n == 0 then 1 else 10 * Pow10(n - 1)
  }

  /** Powers of ten multiply by adding exponents. */
  lemma {:induction false} Pow10Add(a: nat, b: nat)
    ensures Pow10(a + b) == Pow10(a) * Pow10(b)
  {
    if a > 0 {
      Pow10Add(a - 1, b);
      assert Pow10(a + b) == 10 * Pow10(a - 1 + b);
    }
  }

  function DigitValue(c: char): (v: nat)
    requires IsDigit(c)
    ensures v < 10
  {
    c as int - '0' as int
  }

  /** The natural number a digit string denotes; leading zeros are allowed. */
  function DigitsValue(ds: seq<char>): (v: nat)
    requires AllDigits(ds)
    ensures v < Pow10(|ds|)
  {
    if |ds| == 0 then 0
    else
      var init := ds[..|ds| - 1];
      assert AllDigits(init);
      10 * DigitsValue(init) + DigitValue(ds[|ds| - 1])
  }

  /** The value of `intDigits.fracDigits`. */
  function DecimalValue(intDigits: seq<char>, fracDigits: seq<char>): (v: real)
    requires AllDigits(intDigits) && AllDigits(fracDigits)
    ensures DigitsValue(intDigits) as real <= v < DigitsValue(intDigits) as real + 1.0
  {
    var f := DigitsValue(fracDigits) as real;
    var p := Pow10(|fracDigits|) as real;
    FractionBelowOne(f, p);
    DigitsValue(intDigits) as real + f / p
  }

  lemma FractionBelowOne(x: real, p: real)
    requires 0.0 <= x < p
    ensures 0.0 <= x / p < 1.0
  {
    assert x / p * p == x;
  }

  /** `s.replace(",", ".")`: with a string pattern, only the FIRST comma is replaced. */
  function ReplaceComma(s: seq<char>): (r: seq<char>)
    ensures |r| == |s|
    ensures forall j :: 0 <= j < |s| ==> r[j] == (if s[j] == ',' && ',' !in s[..j] then '.' else s[j])
  {
    if |s| == 0 then []
    else if s[0] == ',' then ['.'] + s[1..]
    else
      var rest := ReplaceComma(s[1..]);
      assert forall j :: 1 <= j < |s| ==> s[1..][..j - 1] == s[1..j] && s[..j] == [s[0]] + s[1..j];
      [s[0]] + rest
  }

  /** The strings the scanners hand to `parseFloat`: digits, dots and diameter marks. */
  predicate IsNumericText(s: seq<char>) {
    forall i :: 0 <= i < |s| ==> IsDigit(s[i]) || s[i] == '.' || IsDiameterMark(s[i])
  }

  /**
   * `parseFloat` on numeric text: the value of the longest prefix of the form
   * `digits[.digits]` or `.digits`; `None` is `NaN`, which is what a leading
   * diameter mark yields.
   */
  function ParseFloat(s: seq<char>): (r: Option<real>)
    requires IsNumericText(s)
    ensures r.Some? <==> |s| > 0 && (IsDigit(s[0]) || (s[0] == '.' && |s| > 1 && IsDigit(s[1])))
    ensures r.Some? ==> r.value >= 0.0
  {
    if |s| == 0 then None
    else if IsDigit(s[0]) then
      var n := DigitRun(s, 0);
      if n < |s| && s[n] == '.' then
        Some(DecimalValue(s[..n], s[n + 1..n + 1 + DigitRun(s, n + 1)]))
      else
        Some(DigitsValue(s[..n]) as real)
    else if s[0] == '.' && 1 < |s| && IsDigit(s[1]) then
      Some(DecimalValue([], s[1..1 + DigitRun(s, 1)]))
    else
      None
  }

  /** A digit string followed by a separator and a digit string. */
  lemma {:induction false} DigitRunOfDigits(a: seq<char>, rest: seq<char>)
    requires AllDigits(a)
    requires |rest| == 0 || !IsDigit(rest[0])
    ensures DigitRun(a + rest, 0) == |a|
    decreases |a|
  {
    if |a| > 0 {
      DigitRunShift(a + rest, 1);
      assert (a + rest)[1..] == a[1..] + rest;
      DigitRunOfDigits(a[1..], rest);
    }
  }

  /** A digit run is the same whether measured in `s` at `i` or in `s[i..]` at 0. */
  lemma {:induction false} DigitRunShift(s: seq<char>, i: nat)
    requires i <= |s|
    ensures DigitRun(s, i) == DigitRun(s[i..], 0)
    decreases |s| - i
  {
    if i < |s| && IsDigit(s[i]) {
      DigitRunShift(s, i + 1);
      assert s[i..][1..] == s[i + 1..];
      DigitRunShift(s[i..], 1);
    }
  }

  /** Replacing the first comma of `a,b` gives `a.b` when `a` holds no comma. */
  lemma ReplaceSoleComma(a: seq<char>, b: seq<char>)
    requires AllDigits(a)
    ensures ReplaceComma(a + [','] + b) == a + ['.'] + b
  {
    var c := a + [','] + b;
    var d := a + ['.'] + b;
    var r := ReplaceComma(c);
    forall j | 0 <= j < |c|
      ensures r[j] == d[j]
    {
      if j < |a| {
        assert c[j] == a[j] == d[j];
        assert IsDigit(a[j]);
      } else if j == |a| {
        assert c[..j] == a;
      } else {
        assert c[..j][|a|] == ',';
        assert c[j] == b[j - |a| - 1] == d[j];
      }
    }
  }

  /** Without a comma there is nothing to replace. */
  lemma NoCommaUnchanged(s: seq<char>)
    requires ',' !in s
    ensures ReplaceComma(s) == s
  {
    var r := ReplaceComma(s);
    assert forall j :: 0 <= j < |s| ==> s[j] != ',';
    assert forall j :: 0 <= j < |s| ==> r[j] == s[j];
  }

  /** `parseFloat` of a plain digit string is the number it spells. */
  lemma ParseWhole(a: seq<char>)
    requires |a| > 0 && AllDigits(a)
    ensures IsNumericText(a)
    ensures ParseFloat(a) == Some(DigitsValue(a) as real)
  {
    assert a + [] == a;
    DigitRunOfDigits(a, []);
    assert a[..|a|] == a;
  }

  /** `parseFloat("a.b")` is the decimal value of `a.b`. */
  lemma ParseDotted(a: seq<char>, b: seq<char>)
    requires |a| > 0 && AllDigits(a) && AllDigits(b)
    ensures IsNumericText(a + ['.'] + b)
    ensures ParseFloat(a + ['.'] + b) == Some(DecimalValue(a, b))
  {
    var d := a + ['.'] + b;
    forall i | 0 <= i < |d|
      ensures IsDigit(d[i]) || d[i] == '.'
    {
      if i < |a| {
        assert d[i] == a[i];
      } else if i > |a| {
        assert d[i] == b[i - |a| - 1];
      }
    }
    assert d == a + (['.'] + b);
    DigitRunOfDigits(a, ['.'] + b);
    var n := DigitRun(d, 0);
    assert n == |a| && d[n] == '.';
    assert d[..n] == a;
    assert d[n + 1..] == b + [];
    DigitRunOfDigits(b, []);
    DigitRunShift(d, n + 1);
    var m := DigitRun(d, n + 1);
    assert m == |b|;
    assert d[n + 1..n + 1 + m] == b;
    assert IsDigit(d[0]);
  }

  /** Both decimal separators parse alike: `"12,5"` and `"12.5"` denote the same number, `12 + 5/10`. */
  lemma CommaAndDotAgree(a: seq<char>, b: seq<char>)
    requires |a| > 0 && AllDigits(a) && AllDigits(b)
    ensures IsNumericText(ReplaceComma(a + [','] + b)) && IsNumericText(a + ['.'] + b)
    ensures ParseFloat(ReplaceComma(a + [','] + b)) == ParseFloat(a + ['.'] + b) == Some(DecimalValue(a, b))
  {
    ReplaceSoleComma(a, b);
    ParseDotted(a, b);
  }
}

=== FILE: dimensions.dfy ===
/**
 * The measurement extractor of the analysis handler: every match of
 * `/(Ø?\d+[\.,]?\d*)\s?(mm)?/gi` in the text, its captured group with the
 * comma replaced and parsed, the values kept in (0.2, 1500], sorted largest
 * first; the first two or three become the dimensions x1, x2, x3.
 */
module Dimensions {
  import opened Wrappers
  import opened Text
  import opened Decimal

  /** Exclusive lower bound of a plausible dimension, in millimetres. */
  const MinDimension: real := 0.2
  /** Inclusive upper bound of a plausible dimension, in millimetres. */
  const MaxDimension: real := 1500.0
  /** The third dimension assumed when only two measurements survive. */
  const DefaultThird: real := 10.0

  predicate InRange(v: real) {
    MinDimension < v <= MaxDimension
  }

  // ---------------------------------------------------------------------------
  // Scanning

  /** A match's captured group `Ø?\d+[\.,]?\d*`, as the slice `s[start..end]` of the text. */
  datatype Span = Span(start: nat, end: nat)

  predicate HasSeparator(t: seq<char>) {
    exists j :: 0 <= j < |t| && IsSeparator(t[j])
  }

  /** The shape of a captured group: an optional diameter mark, a digit, then digits with at most one separator. */
  predicate IsMeasureToken(t: seq<char>) {
    && |t| > 0
    && (var b := if IsDiameterMark(t[0]) then 1 else 0;
        && b < |t|
        && IsDigit(t[b])
        && (forall j :: b <= j < |t| ==> IsDigit(t[j]) || IsSeparator(t[j]))
        && (forall j, j' :: b <= j < j' < |t| && IsSeparator(t[j]) ==> !IsSeparator(t[j'])))
  }

  /** The greedy match cannot be extended: no digit follows, and no separator unless the group already holds one. */
  predicate EndsMaximally(s: seq<char>, sp: Span)
    requires sp.start <= sp.end <= |s|
  {
    sp.end == |s| || (!IsDigit(s[sp.end]) && (!IsSeparator(s[sp.end]) || HasSeparator(s[sp.start..sp.end])))
  }

  predicate WellPlaced(s: seq<char>, sp: Span) {
    && sp.start < sp.end <= |s|
    && IsMeasureToken(s[sp.start..sp.end])
    && EndsMaximally(s, sp)
  }

  /** Where the greedy `\d+[\.,]?\d*` that begins with the digit at `i` stops. */
  function NumberEnd(s: seq<char>, i: nat): (e: nat)
    requires i < |s| && IsDigit(s[i])
    ensures i < e <= |s|
    ensures forall j :: i <= j < e ==> IsDigit(s[j]) || IsSeparator(s[j])
    ensures forall j, j' :: i <= j < j' < e && IsSeparator(s[j]) ==> !IsSeparator(s[j'])
    ensures EndsMaximally(s, Span(i, e))
  {
    var j := i + DigitRun(s, i);
    assert forall q :: i <= q < j ==> s[i..j][q - i] == s[q];
    if j < |s| && IsSeparator(s[j]) then
      var e := j + 1 + DigitRun(s, j + 1);
      assert forall q :: j + 1 <= q < e ==> s[j + 1..e][q - j - 1] == s[q];
      assert s[i..e][j - i] == s[j];
      e
    else
      j
  }

  /** Where the match continues past its group: `\s?(mm)?`, case-insensitive. */
  function SuffixEnd(s: seq<char>, e: nat): (f: nat)
    requires e <= |s|
    ensures e <= f <= |s|
    ensures forall j :: e <= j < f ==> !IsDigit(s[j]) && !IsDiameterMark(s[j])
  {
    var k := if e < |s| && IsSpace(s[e]) then e + 1 else e;
    if k + 2 <= |s| && (s[k] == 'm' || s[k] == 'M') && (s[k + 1] == 'm' || s[k + 1] == 'M') then k + 2 else k
  }

  /** A match can begin at `i`: a digit, or a diameter mark directly followed by a digit. */
  predicate MatchStartsAt(s: seq<char>, i: nat)
    requires i < |s|
  {
    IsDigit(s[i]) || (IsDiameterMark(s[i]) && i + 1 < |s| && IsDigit(s[i + 1]))
  }

  /** `matchAll` from position `i`: the captured groups of all successive leftmost matches. */
  function Scan(s: seq<char>, i: nat): (spans: seq<Span>)
    requires i <= |s|
    ensures forall k :: 0 <= k < |spans| ==> i <= spans[k].start < spans[k].end <= |s|
    ensures forall k :: 0 < k < |spans| ==> spans[k - 1].end <= spans[k].start
    decreases |s| - i
  {
    if i == |s| then []
    else if MatchStartsAt(s, i) then
      var e := NumberEnd(s, if IsDigit(s[i]) then i else i + 1);
      [Span(i, e)] + Scan(s, SuffixEnd(s, e))
    else
      Scan(s, i + 1)
  }

  /** Every captured group has the shape of the pattern and is as long as the greedy match makes it. */
  lemma {:induction false} ScanWellPlaced(s: seq<char>, i: nat)
    requires i <= |s|
    ensures forall k :: 0 <= k < |Scan(s, i)| ==> WellPlaced(s, Scan(s, i)[k])
    decreases |s| - i
  {
    if i == |s| {
    } else if MatchStartsAt(s, i) {
      var d := if IsDigit(s[i]) then i else i + 1;
      var e := NumberEnd(s, d);
      TokenAt(s, i, d, e);
      ScanWellPlaced(s, SuffixEnd(s, e));
      assert Scan(s, i) == [Span(i, e)] + Scan(s, SuffixEnd(s, e));
      AllWellPlacedCons(s, Span(i, e), Scan(s, SuffixEnd(s, e)));
    } else {
      ScanWellPlaced(s, i + 1);
    }
  }

  lemma AllWellPlacedCons(s: seq<char>, sp: Span, rest: seq<Span>)
    requires WellPlaced(s, sp)
    requires forall k :: 0 <= k < |rest| ==> WellPlaced(s, rest[k])
    ensures forall k :: 0 <= k < |[sp] + rest| ==> WellPlaced(s, ([sp] + rest)[k])
  {
    assert forall k :: 0 < k < |[sp] + rest| ==> ([sp] + rest)[k] == rest[k - 1];
  }

  lemma TokenAt(s: seq<char>, i: nat, d: nat, e: nat)
    requires i < |s| && MatchStartsAt(s, i)
    requires d == if IsDigit(s[i]) then i else i + 1
    requires e == NumberEnd(s, d)
    ensures WellPlaced(s, Span(i, e))
  {
    TokenShape(s, i, d, e);
    TokenMaximal(s, i, d, e);
  }

  lemma TokenShape(s: seq<char>, i: nat, d: nat, e: nat)
    requires i < |s| && MatchStartsAt(s, i)
    requires d == if IsDigit(s[i]) then i else i + 1
    requires e == NumberEnd(s, d)
    ensures IsMeasureToken(s[i..e])
  {
    var t := s[i..e];
    assert forall q :: i <= q < e ==> t[q - i] == s[q];
    assert !IsDigit(s[i]) ==> IsDiameterMark(t[0]);
    assert IsDigit(s[i]) ==> !IsDiameterMark(t[0]);
  }

  lemma TokenMaximal(s: seq<char>, i: nat, d: nat, e: nat)
    requires i < |s| && MatchStartsAt(s, i)
    requires d == if IsDigit(s[i]) then i else i + 1
    requires e == NumberEnd(s, d)
    ensures EndsMaximally(s, Span(i, e))
  {
    if HasSeparator(s[d..e]) {
      var j :| 0 <= j < |s[d..e]| && IsSeparator(s[d..e][j]);
      assert s[i..e][d - i + j] == s[d..e][j];
    }
  }

  predicate Covers(sp: Span, p: int) {
    sp.start <= p < sp.end
  }

  /** Every digit of `s` at or after `i` lies inside one of `spans`. */
  predicate CoversDigitsFrom(s: seq<char>, spans: seq<Span>, i: nat) {
    forall p :: i <= p < |s| && IsDigit(s[p]) ==> exists k :: 0 <= k < |spans| && Covers(spans[k], p)
  }

  lemma CoverStep(s: seq<char>, i: nat, sp: Span, f: nat, rest: seq<Span>)
    requires sp.start == i <= sp.end <= f
    requires forall p :: sp.end <= p < f && p < |s| ==> !IsDigit(s[p])
    requires CoversDigitsFrom(s, rest, f)
    ensures CoversDigitsFrom(s, [sp] + rest, i)
  {
    var spans := [sp] + rest;
    forall p | i <= p < |s| && IsDigit(s[p])
      ensures exists k :: 0 <= k < |spans| && Covers(spans[k], p)
    {
      if p < sp.end {
        assert Covers(spans[0], p);
      } else {
        var k :| 0 <= k < |rest| && Covers(rest[k], p);
        assert Covers(spans[k + 1], p);
      }
    }
  }

  /** No digit escapes the scan: every digit at or after `i` lies inside some captured group. */
  lemma {:induction false} ScanCoversDigits(s: seq<char>, i: nat)
    requires i <= |s|
    ensures CoversDigitsFrom(s, Scan(s, i), i)
    decreases |s| - i
  {
    if i == |s| {
    } else if MatchStartsAt(s, i) {
      var d := if IsDigit(s[i]) then i else i + 1;
      var e := NumberEnd(s, d);
      var f := SuffixEnd(s, e);
      ScanCoversDigits(s, f);
      assert Scan(s, i) == [Span(i, e)] + Scan(s, f);
      CoverStep(s, i, Span(i, e), f, Scan(s, f));
    } else {
      ScanCoversDigits(s, i + 1);
      assert Scan(s, i) == Scan(s, i + 1);
    }
  }

  /** A diameter mark directly followed by a digit at position `p`: where `Ø?` must take part in a match. */
  predicate MarkBeforeDigit(s: seq<char>, p: int) {
    0 <= p && p + 1 < |s| && IsDiameterMark(s[p]) && IsDigit(s[p + 1])
  }

  predicate StartsSomeSpan(spans: seq<Span>, p: int) {
    exists k :: 0 <= k < |spans| && spans[k].start == p
  }

  /** Every mark-before-digit at or after `i` begins one of `spans`. */
  predicate CatchesMarksFrom(s: seq<char>, spans: seq<Span>, i: nat) {
    forall p :: i <= p < |s| && MarkBeforeDigit(s, p) ==> StartsSomeSpan(spans, p)
  }

  lemma MarkStep(s: seq<char>, i: nat, sp: Span, f: nat, rest: seq<Span>)
    requires sp.start == i <= f
    requires forall p :: i < p < f && p < |s| ==> !IsDiameterMark(s[p])
    requires CatchesMarksFrom(s, rest, f)
    ensures CatchesMarksFrom(s, [sp] + rest, i)
  {
    var spans := [sp] + rest;
    forall p | i <= p < |s| && MarkBeforeDigit(s, p)
      ensures StartsSomeSpan(spans, p)
    {
      if p == i {
        assert spans[0].start == p;
      } else {
        assert StartsSomeSpan(rest, p);
        var k :| 0 <= k < |rest| && rest[k].start == p;
        assert spans[k + 1].start == p;
      }
    }
  }

  /**
   * Matches are leftmost: the scan never steps over a diameter mark that
   * directly precedes a digit, so such a mark always begins a captured group
   * (and its value is then NaN).
   */
  lemma {:induction false} ScanCatchesMarks(s: seq<char>, i: nat)
    requires i <= |s|
    ensures CatchesMarksFrom(s, Scan(s, i), i)
    decreases |s| - i
  {
    if i == |s| {
    } else if MatchStartsAt(s, i) {
      var d := if IsDigit(s[i]) then i else i + 1;
      var e := NumberEnd(s, d);
      var f := SuffixEnd(s, e);
      ScanCatchesMarks(s, f);
      assert Scan(s, i) == [Span(i, e)] + Scan(s, f);
      assert forall p :: d <= p < e ==> !IsDiameterMark(s[p]);
      MarkStep(s, i, Span(i, e), f, Scan(s, f));
    } else {
      ScanCatchesMarks(s, i + 1);
      assert Scan(s, i) == Scan(s, i + 1);
      assert !MarkBeforeDigit(s, i);
    }
  }

  /** The captured groups of all matches, in text order. */
  function Tokens(s: seq<char>): (ts: seq<seq<char>>)
    ensures |ts| == |Scan(s, 0)|
    ensures forall k :: 0 <= k < |ts| ==> IsMeasureToken(ts[k])
    ensures forall k :: 0 <= k < |ts| ==> ts[k] == s[Scan(s, 0)[k].start..Scan(s, 0)[k].end]
  {
    var spans := Scan(s, 0);
    ScanWellPlaced(s, 0);
    seq(|spans|, k requires 0 <= k < |spans| => s[spans[k].start..spans[k].end])
  }

  /** Each token is text the handler really read: it occurs in the text where its match starts. */
  lemma TokenOccurs(s: seq<char>, k: nat)
    requires k < |Tokens(s)|
    ensures OccursAt(s, Tokens(s)[k], Scan(s, 0)[k].start)
    ensures Contains(s, Tokens(s)[k])
  {
    var sp := Scan(s, 0)[k];
    var t := Tokens(s)[k];
    assert OccursAt(t, t, 0);
    ContainsInContext(s[..sp.start], t, s[sp.end..], t);
    assert s[..sp.start] + t + s[sp.end..] == s;
  }

  // ---------------------------------------------------------------------------
  // Parsing and filtering

  /**
   * `parseFloat(group.replace(",", "."))`. A group that starts with a diameter
   * mark is NaN (`None`): the mark is not part of any number.
   */
  function TokenValue(t: seq<char>): (r: Option<real>)
    requires IsMeasureToken(t)
    ensures r.Some? <==> IsDigit(t[0])
    ensures IsDiameterMark(t[0]) ==> r.None?
  {
    var n := ReplaceComma(t);
    assert IsNumericText(n);
    ParseFloat(n)
  }

  /** A group `a` without separator stands for the whole number `a`. */
  lemma WholeMeasureValue(a: seq<char>)
    requires |a| > 0 && AllDigits(a)
    ensures IsMeasureToken(a)
    ensures TokenValue(a) == Some(DigitsValue(a) as real)
  {
    assert IsDigit(a[0]);
    NoCommaUnchanged(a);
    ParseWhole(a);
  }

  /** A group `a.b` or `a,b` stands for the decimal number `a.b`, whichever separator it uses. */
  lemma SeparatedMeasureValue(a: seq<char>, sep: char, b: seq<char>)
    requires |a| > 0 && AllDigits(a) && AllDigits(b) && IsSeparator(sep)
    ensures IsMeasureToken(a + [sep] + b)
    ensures TokenValue(a + [sep] + b) == Some(DecimalValue(a, b))
  {
    SeparatedIsToken(a, sep, b);
    if sep == ',' {
      CommaAndDotAgree(a, b);
    } else {
      DotWithoutComma(a, b);
      ParseDotted(a, b);
    }
  }

  lemma SeparatedIsToken(a: seq<char>, sep: char, b: seq<char>)
    requires |a| > 0 && AllDigits(a) && AllDigits(b) && IsSeparator(sep)
    ensures IsMeasureToken(a + [sep] + b)
  {
    var t := a + [sep] + b;
    assert t[0] == a[0] && IsDigit(t[0]);
    assert forall j :: 0 <= j < |t| ==> (j < |a| ==> t[j] == a[j]) && (j > |a| ==> t[j] == b[j - |a| - 1]);
  }

  lemma DotWithoutComma(a: seq<char>, b: seq<char>)
    requires AllDigits(a) && AllDigits(b)
    ensures ReplaceComma(a + ['.'] + b) == a + ['.'] + b
  {
    var t := a + ['.'] + b;
    forall j | 0 <= j < |t| ensures t[j] != ',' {
      if j < |a| { assert IsDigit(a[j]); } else if j > |a| { assert IsDigit(b[j - |a| - 1]); }
    }
    NoCommaUnchanged(t);
  }

  /**
   * Normalising a token's separator is idempotent: a token holds at most one
   * separator, so after the first comma has become a dot no comma is left.
   */
  lemma NormaliseTwice(t: seq<char>)
    requires IsMeasureToken(t)
    ensures ReplaceComma(ReplaceComma(t)) == ReplaceComma(t)
  {
    var r := ReplaceComma(t);
    var b := if IsDiameterMark(t[0]) then 1 else 0;
    forall j | 0 <= j < |r| ensures r[j] != ',' {
      if t[j] == ',' && ',' in t[..j] {
        var j' :| 0 <= j' < j && t[..j][j'] == ',';
        assert t[j'] == ',' && !IsDiameterMark(t[j']);
        assert b <= j' && IsSeparator(t[j']) && IsSeparator(t[j]);
      }
    }
    NoCommaUnchanged(r);
  }

  /** Every captured group, converted to a number (`None` for NaN). */
  function Candidates(s: seq<char>): (cs: seq<Option<real>>)
    ensures |cs| == |Tokens(s)|
    ensures forall k :: 0 <= k < |cs| ==> (cs[k].Some? <==> IsDigit(Tokens(s)[k][0]))
    ensures forall k :: 0 <= k < |cs| && IsDiameterMark(Tokens(s)[k][0]) ==> cs[k].None?
    ensures forall k :: 0 <= k < |cs| ==> cs[k] == TokenValue(Tokens(s)[k])
  {
    var ts := Tokens(s);
    seq(|ts|, k requires 0 <= k < |ts| => TokenValue(ts[k]))
  }

  /** `filter(z => z > 0.2 && z <= 1500)`; NaN fails both comparisons. */
  function KeepInRange(cs: seq<Option<real>>): (r: seq<real>)
    ensures forall v :: multiset(r)[v] == if InRange(v) then multiset(cs)[Some(v)] else 0
  {
    if |cs| == 0 then []
    else
      var rest := KeepInRange(cs[1..]);
      assert cs == [cs[0]] + cs[1..];
      if cs[0].Some? && InRange(cs[0].value) then [cs[0].value] + rest else rest
  }

  // ---------------------------------------------------------------------------
  // Sorting, largest first

  predicate SortedDesc(s: seq<real>) {
    forall i, j :: 0 <= i < j < |s| ==> s[i] >= s[j]
  }

  function Insert(x: real, s: seq<real>): (r: seq<real>)
    requires SortedDesc(s)
    ensures SortedDesc(r)
    ensures multiset(r) == multiset(s) + multiset{x}
    ensures |r| == |s| + 1 && (r[0] == x || (|s| > 0 && r[0] == s[0]))
  {
    if |s| == 0 then [x]
    else if x >= s[0] then [x] + s
    else
      var rest := Insert(x, s[1..]);
      assert s == [s[0]] + s[1..];
      assert s[0] >= rest[0];
      [s[0]] + rest
  }

  /** `sort((a, b) => b - a)` on numbers (no NaN is left after the filter). */
  function SortDesc(s: seq<real>): (r: seq<real>)
    ensures SortedDesc(r)
    ensures multiset(r) == multiset(s)
  {
    if |s| == 0 then []
    else
      assert s == [s[0]] + s[1..];
      Insert(s[0], SortDesc(s[1..]))
  }

  /** A sorted arrangement of a multiset is unique: any correct descending sort yields the same list. */
  lemma {:induction false} SortedUnique(a: seq<real>, b: seq<real>)
    requires SortedDesc(a) && SortedDesc(b)
    requires multiset(a) == multiset(b)
    ensures a == b
    decreases |a|
  {
    if |a| > 0 {
      HeadsAgree(a, b);
      DropHead(a);
      DropHead(b);
      SortedUnique(a[1..], b[1..]);
      assert a == [a[0]] + a[1..];
      assert b == [b[0]] + b[1..];
    } else {
      assert |b| == |multiset(b)| == 0;
    }
  }

  lemma HeadsAgree(a: seq<real>, b: seq<real>)
    requires SortedDesc(a) && SortedDesc(b) && |a| > 0
    requires multiset(a) == multiset(b)
    ensures |b| > 0 && a[0] == b[0]
  {
    assert a[0] in multiset(a);
    HeadIsLargest(b, a[0]);
    assert b[0] in multiset(b);
    HeadIsLargest(a, b[0]);
  }

  lemma DropHead(a: seq<real>)
    requires SortedDesc(a) && |a| > 0
    ensures SortedDesc(a[1..])
    ensures multiset(a[1..]) == multiset(a) - multiset{a[0]}
  {
    assert a == [a[0]] + a[1..];
  }

  lemma HeadIsLargest(a: seq<real>, x: real)
    requires SortedDesc(a) && x in multiset(a)
    ensures |a| > 0 && a[0] >= x
  {
    var i :| 0 <= i < |a| && a[i] == x;
  }

  /** The surviving measurements, largest first. */
  function Measurements(s: seq<char>): (zs: seq<real>)
    ensures SortedDesc(zs)
    ensures forall v :: multiset(zs)[v] == if InRange(v) then multiset(Candidates(s))[Some(v)] else 0
    ensures forall k :: 0 <= k < |zs| ==> InRange(zs[k])
  {
    var zs := SortDesc(KeepInRange(Candidates(s)));
    assert forall k :: 0 <= k < |zs| ==> zs[k] in multiset(zs);
    zs
  }

  /** Measurements are determined by their two defining properties: sorted, and the in-range candidate values. */
  lemma MeasurementsCharacterized(s: seq<char>, zs: seq<real>)
    requires SortedDesc(zs)
    requires forall v :: multiset(zs)[v] == if InRange(v) then multiset(Candidates(s))[Some(v)] else 0
    ensures zs == Measurements(s)
  {
    var ms := Measurements(s);
    assert multiset(zs) == multiset(ms);
    SortedUnique(zs, ms);
  }

  // ---------------------------------------------------------------------------
  // Dimensions

  datatype Dims = Dims(x1: real, x2: real, x3: real)

  /** x1 >= x2 in range; x3 either a third measurement no larger than x2, or the default. */
  predicate ValidDims(d: Dims) {
    && InRange(d.x1) && InRange(d.x2) && d.x1 >= d.x2
    && ((InRange(d.x3) && d.x3 <= d.x2) || d.x3 == DefaultThird)
  }

  /** The three dimensions, or `None` when fewer than two measurements survive. */
  function ExtractDims(s: seq<char>): (r: Option<Dims>)
    ensures r.None? <==> |Measurements(s)| < 2
    ensures r.Some? ==> ValidDims(r.value)
    ensures r.Some? ==> forall v :: v in Measurements(s) ==> v <= r.value.x1
    ensures r.Some? ==> var zs := Measurements(s);
      && r.value.x1 == zs[0] && r.value.x2 == zs[1]
      && (|zs| == 2 ==> r.value.x3 == DefaultThird)
      && (|zs| > 2 ==> r.value.x3 == zs[2])
  {
    var zs := Measurements(s);
    if |zs| < 2 then None
    else Some(Dims(zs[0], zs[1], if |zs| > 2 then zs[2] else DefaultThird))
  }
}

=== FILE: geometry.dfy ===
/**
 * The shape classifier of the analysis handler: an ordered list of rules over
 * the dimensions and the presence of the diameter sign, first match wins, and
 * the volume formula of the chosen shape.
 */
module Geometry {
  import opened Wrappers
  import opened Dimensions
  import opened Rules

  /** The handler's "Zylinder", "Profil/Rohr", "Platte/Klotz" and "Standard". */
  datatype Shape = Cylinder | ProfileOrTube | PlateOrBlock | Standard

  /** The label the response carries for a shape. */
  function Label(shape: Shape): (r: string)
    ensures r != "unbekannt"
  {
    match shape
    case Cylinder => "Zylinder"
    case ProfileOrTube => "Profil/Rohr"
    case PlateOrBlock => "Platte/Klotz"
    case Standard => "Standard"
  }

  /** At most this large, x1 makes the part a cylinder. */
  const SlenderLimit: real := 50.0
  /** x1 more than this many times x2 makes the part a profile or tube. */
  const ElongationRatio: real := 3.0
  /** Neighbouring dimensions closer than this make the part a plate or block. */
  const ClosenessLimit: real := 100.0

  /** `Math.PI`, used only through its sign by the proofs. */
  const Pi: real := 3.141592653589793

  function Abs(x: real): (r: real)
    ensures r >= 0.0 && (r == x || r == -x)
  {
    if x < 0.0 then -x else x
  }

  /** The condition of one rule. */
  datatype Guard = MarkedOrSmall | Elongated | Compact | Always

  predicate Holds(g: Guard, d: Dims, marked: bool) {
    match g
    case MarkedOrSmall => marked || d.x1 <= SlenderLimit
    case Elongated => d.x1 > ElongationRatio * d.x2
    case Compact => Abs(d.x1 - d.x2) < ClosenessLimit && Abs(d.x2 - d.x3) < ClosenessLimit
    case Always => true
  }

  /** The rules in the order the handler tries them. */
  const ShapeRules: seq<(Guard, Shape)> :=
    [(MarkedOrSmall, Cylinder), (Elongated, ProfileOrTube), (Compact, PlateOrBlock), (Always, Standard)]

  /**
   * The shape of a part with dimensions `d`; `marked` says whether the text
   * contains the diameter sign. The four cases are exclusive and exhaustive,
   * each rule applying only when every earlier one failed.
   */
  function ClassifyShape(d: Dims, marked: bool): (r: Shape)
    ensures r == Cylinder <==> marked || d.x1 <= SlenderLimit
    ensures r == ProfileOrTube <==> !marked && d.x1 > SlenderLimit && d.x1 > ElongationRatio * d.x2
    ensures r == PlateOrBlock <==>
      && !marked && d.x1 > SlenderLimit && d.x1 <= ElongationRatio * d.x2
      && Abs(d.x1 - d.x2) < ClosenessLimit && Abs(d.x2 - d.x3) < ClosenessLimit
    ensures r == Standard <==>
      && !marked && d.x1 > SlenderLimit && d.x1 <= ElongationRatio * d.x2
      && !(Abs(d.x1 - d.x2) < ClosenessLimit && Abs(d.x2 - d.x3) < ClosenessLimit)
  {
    var holds := g => Holds(g, d, marked);
    var r := FirstMatch(ShapeRules, holds);
    assert ShapeRules[1..] == [(Elongated, ProfileOrTube), (Compact, PlateOrBlock), (Always, Standard)];
    assert ShapeRules[1..][1..] == [(Compact, PlateOrBlock), (Always, Standard)];
    assert ShapeRules[1..][1..][1..] == [(Always, Standard)];
    assert r == if holds(MarkedOrSmall) then Some(Cylinder)
                else if holds(Elongated) then Some(ProfileOrTube)
                else if holds(Compact) then Some(PlateOrBlock)
                else Some(Standard);
    r.value
  }

  /** Volume of the 3-D box x1 * x2 * x3, in cm^3 when the dimensions are in mm. */
  function BoxVolume(d: Dims): (v: real)
    ensures d.x1 > 0.0 && d.x2 > 0.0 && d.x3 > 0.0 ==> v > 0.0
  {
    d.x1 * d.x2 * d.x3 / 1000.0
  }

  lemma PositiveDims(d: Dims)
    ensures ValidDims(d) ==> d.x1 > 0.0 && d.x2 > 0.0 && d.x3 > 0.0 && BoxVolume(d) > 0.0
  {
  }

  /** A product, positive when both factors are; it keeps the solver off the square `r * r`. */
  function Product(a: real, b: real): (r: real)
    ensures a > 0.0 && b > 0.0 ==> r > 0.0
  {
    a * b
  }

  /** The handler's `Math.PI * r * r * x2 / 1000` with `r = x1 / 2`. */
  function CylinderVolume(x1: real, x2: real): (v: real)
    ensures v == Pi * x1 * x1 * x2 / 4000.0
    ensures x1 > 0.0 && x2 > 0.0 ==> v > 0.0
  {
    var radius := x1 / 2.0;
    Pi * Product(radius, radius) * x2 / 1000.0
  }

  /**
   * The volume formula of a shape: a cylinder of diameter x1 and length x2,
   * every other shape a box.
   */
  function Volume(shape: Shape, d: Dims): (v: real)
    ensures ValidDims(d) ==> v > 0.0
    ensures shape != Cylinder ==> v == BoxVolume(d)
    ensures shape == Cylinder ==> v == Pi * d.x1 * d.x1 * d.x2 / 4000.0
  {
    PositiveDims(d);
    if shape == Cylinder then
      CylinderVolume(d.x1, d.x2)
    else if shape == ProfileOrTube then
      assert d.x2 * d.x3 * d.x1 == d.x1 * d.x2 * d.x3;
      d.x2 * d.x3 * d.x1 / 1000.0
    else
      d.x1 * d.x2 * d.x3 / 1000.0
  }
}

=== FILE: materials.dfy ===
/**
 * The material classifier of the analysis handler: keyword groups searched in
 * the lower-cased text in a fixed priority order, steel when none occurs, and
 * the density and price tables indexed by the result.
 */
module Materials {
  import opened Wrappers
  import opened Text
  import opened Rules

  /** The handler's "stahl", "aluminium", "edelstahl", "messing" and "kupfer". */
  datatype Material = Steel | Aluminium | StainlessSteel | Brass | Copper

  /** The key the response carries for a material. */
  function Key(m: Material): (r: string)
    ensures |r| > 0
  {
    match m
    case Steel => "stahl"
    case Aluminium => "aluminium"
    case StainlessSteel => "edelstahl"
    case Brass => "messing"
    case Copper => "kupfer"
  }

  /** Distinct materials carry distinct keys. */
  lemma KeyInjective(a: Material, b: Material)
    ensures Key(a) == Key(b) <==> a == b
  {
  }

  /** The keyword groups in the order the handler tries them. */
  const KeywordRules: seq<(seq<string>, Material)> := [
    (["alu", "6082"], Aluminium),
    (["edelstahl", "1.4301"], StainlessSteel),
    (["messing", "ms58"], Brass),
    (["kupfer"], Copper)
  ]

  /** The material assumed when no keyword occurs. */
  const DefaultMaterial: Material := Steel

  /** Some keyword of `keys` occurs in `lower`. */
  predicate MentionsAny(lower: seq<char>, keys: seq<string>) {
    exists i | 0 <= i < |keys| :: Contains(lower, keys[i])
  }

  lemma MentionsPair(lower: seq<char>, a: string, b: string)
    ensures MentionsAny(lower, [a, b]) <==> Contains(lower, a) || Contains(lower, b)
  {
    var keys := [a, b];
    if Contains(lower, a) {
      assert Contains(lower, keys[0]);
    } else if Contains(lower, b) {
      assert Contains(lower, keys[1]);
    }
  }

  lemma MentionsOne(lower: seq<char>, a: string)
    ensures MentionsAny(lower, [a]) <==> Contains(lower, a)
  {
    var keys := [a];
    if Contains(lower, a) {
      assert Contains(lower, keys[0]);
    }
  }

  predicate MentionsAluminium(lower: seq<char>) {
    Contains(lower, "alu") || Contains(lower, "6082")
  }

  predicate MentionsStainless(lower: seq<char>) {
    Contains(lower, "edelstahl") || Contains(lower, "1.4301")
  }

  predicate MentionsBrass(lower: seq<char>) {
    Contains(lower, "messing") || Contains(lower, "ms58")
  }

  predicate MentionsCopper(lower: seq<char>) {
    Contains(lower, "kupfer")
  }

  /**
   * The material named by `text`: the first keyword group, in priority order,
   * with a keyword in the lower-cased text; steel when there is none.
   */
  function ClassifyMaterial(text: seq<char>): (r: Material)
    ensures var lower := ToLower(text);
      && (r == Aluminium <==> MentionsAluminium(lower))
      && (r == StainlessSteel <==> !MentionsAluminium(lower) && MentionsStainless(lower))
      && (r == Brass <==> !MentionsAluminium(lower) && !MentionsStainless(lower) && MentionsBrass(lower))
      && (r == Copper <==>
           !MentionsAluminium(lower) && !MentionsStainless(lower) && !MentionsBrass(lower) && MentionsCopper(lower))
      && (r == Steel <==>
           !MentionsAluminium(lower) && !MentionsStainless(lower) && !MentionsBrass(lower) && !MentionsCopper(lower))
  {
    var lower := ToLower(text);
    var holds := keys => MentionsAny(lower, keys);
    MentionsPair(lower, "alu", "6082");
    MentionsPair(lower, "edelstahl", "1.4301");
    MentionsPair(lower, "messing", "ms58");
    MentionsOne(lower, "kupfer");
    match FirstMatch(KeywordRules, holds)
    case Some(m) =>
      var i :| && 0 <= i < |KeywordRules| && holds(KeywordRules[i].0) && KeywordRules[i].1 == m
               && forall j :: 0 <= j < i ==> !holds(KeywordRules[j].0);
      assert holds(KeywordRules[i].0);
      assert i > 0 ==> !holds(KeywordRules[0].0);
      assert i > 1 ==> !holds(KeywordRules[1].0);
      assert i > 2 ==> !holds(KeywordRules[2].0);
      m
    case None =>
      assert forall i :: 0 <= i < 4 ==> !holds(KeywordRules[i].0);
      DefaultMaterial
  }

  /** Classification ignores letter case: the text and its lower-cased form name the same material. */
  lemma ClassifyIgnoresCase(text: seq<char>)
    ensures ClassifyMaterial(ToLower(text)) == ClassifyMaterial(text)
  {
    ToLowerIdempotent(text);
  }

  /** Density in kg/dm^3 (equivalently g/cm^3). */
  function Density(m: Material): (r: real)
    ensures 2.7 <= r <= 8.9
  {
    match m
    case Aluminium => 2.7
    case StainlessSteel => 7.9
    case Steel => 7.85
    case Brass => 8.4
    case Copper => 8.9
  }

  /** Price in euro per kilogram. */
  function PricePerKg(m: Material): (r: real)
    ensures 1.5 <= r <= 10.0
  {
    match m
    case Aluminium => 7.0
    case StainlessSteel => 6.5
    case Steel => 1.5
    case Brass => 8.0
    case Copper => 10.0
  }
}

=== FILE: pipeline.dfy ===
/**
 * The analysis handler from the extracted text to the response: measurement
 * and weight extraction, shape and material classification, weight estimate,
 * the oversize gate, costing and the overprice gate.
 */
module Pipeline {
  import opened Wrappers
  import opened Text
  import opened Dimensions
  import opened WeightScan
  import opened Geometry
  import opened Materials

  /** The oversize gate fires above this weight, in kg ... */
  const HeavyLimit: real := 50.0
  /** ... when some dimension also exceeds this, in mm. */
  const LargeLimit: real := 100.0
  /** The overprice gate fires above this final unit price. */
  const PriceLimit: real := 10000.0

  /** Machine set-up cost per order. */
  const SetupCost: real := 60.0
  /** Programming cost per order. */
  const ProgrammingCost: real := 30.0
  /** Machining minutes per kilogram of part. */
  const MinutesPerKg: real := 2.0
  /** Machining cost per hour. */
  const HourlyRate: real := 35.0
  /** The fixed 15% margin. */
  const Margin: real := 1.15
  /** The quantity assumed when the request gives none, or 0, or no number. */
  const DefaultQuantity: int := 1

  /** What the handler knows about the part once it has dimensions. */
  datatype Part = Part(shape: Shape, dims: Dims, material: Material, volume: real, weight: real)

  datatype Cost = Cost(
    materialCost: real,
    runtimeMinutes: real,
    machiningCost: real,
    fixedCost: real,
    unitPriceRaw: real,
    unitPriceFinal: real)

  /** Why an estimate is handed to a person instead of being returned. */
  datatype Advisory = TooLarge | TooExpensive

  /** The three kinds of response. */
  datatype Outcome =
    | Insufficient
    | Escalated(advisory: Advisory, part: Part, price: Option<real>)
    | Full(part: Part, cost: Cost, quantity: int)

  /** The advisory text a response carries, if any. */
  function Hint(o: Outcome): (r: Option<string>)
    ensures r.None? <==> o.Full?
  {
    match o
    case Insufficient => Some("Nicht genügend gültige Maße erkannt.")
    case Escalated(TooLarge, _, _) => Some("Bauteil zu groß – bitte manuell prüfen")
    case Escalated(TooExpensive, _, _) => Some("Preis zu hoch – bitte manuell prüfen")
    case Full(_, _, _) => None
  }

  // ---------------------------------------------------------------------------
  // Weight

  /**
   * The part's weight: an explicit weight from the text unless it is missing
   * or zero (both falsy in JavaScript), otherwise volume times density.
   */
  function EstimateWeight(explicit: Option<real>, volume: real, density: real): (w: real)
    ensures explicit.Some? && explicit.value != 0.0 ==> w == explicit.value
    ensures explicit.None? || explicit.value == 0.0 ==> w == volume * density
    ensures (explicit.Some? ==> explicit.value >= 0.0) && volume > 0.0 && density > 0.0 ==> w > 0.0
  {
    if explicit.Some? && explicit.value != 0.0 then explicit.value else volume * density
  }

  /** The text contains the diameter sign (case-sensitive, unlike the measurement pattern). */
  predicate HasDiameterSign(text: seq<char>) {
    Contains(text, [DiameterSign])
  }

  /** The sign is U+00D8 itself; the small `ø` that the measurement pattern also accepts does not count. */
  lemma HasDiameterSignIff(text: seq<char>)
    ensures HasDiameterSign(text) <==> DiameterSign in text
  {
    ContainsSingle(text, DiameterSign);
  }

  /** Everything up to the first gate: `None` when fewer than two measurements survive. */
  function Inspect(text: seq<char>): (r: Option<Part>)
    ensures r.None? <==> |Measurements(text)| < 2
    ensures r.Some? ==> var p := r.value;
      && Some(p.dims) == ExtractDims(text)
      && ValidDims(p.dims)
      && p.shape == ClassifyShape(p.dims, HasDiameterSign(text))
      && p.material == ClassifyMaterial(text)
      && p.volume == Volume(p.shape, p.dims)
      && p.volume > 0.0
      && p.weight > 0.0
      && p.weight == EstimateWeight(ExplicitWeight(text), p.volume, Density(p.material))
  {
    match ExtractDims(text)
    case None => None
    case Some(d) =>
      var shape := ClassifyShape(d, HasDiameterSign(text));
      var material := ClassifyMaterial(text);
      var volume := Volume(shape, d);
      Some(Part(shape, d, material, volume, EstimateWeight(ExplicitWeight(text), volume, Density(material))))
  }

  // ---------------------------------------------------------------------------
  // Gates and costing

  /** `Math.max` of three numbers. */
  function Max3(a: real, b: real, c: real): (m: real)
    ensures m >= a && m >= b && m >= c
    ensures m == a || m == b || m == c
  {
    if a >= b && a >= c then a else if b >= c then b else c
  }

  /** The oversize gate: heavy AND large, both strictly. */
  predicate Oversized(p: Part) {
    p.weight > HeavyLimit && Max3(p.dims.x1, p.dims.x2, p.dims.x3) > LargeLimit
  }

  /** On valid dimensions only x1 can make a part large: x3 is at most x2, or the default 10. */
  lemma LargeMeansX1(d: Dims)
    requires ValidDims(d)
    ensures Max3(d.x1, d.x2, d.x3) > LargeLimit <==> d.x1 > LargeLimit
  {
  }

  /** On valid dimensions the oversize gate reads: heavier than 50 kg and x1 longer than 100 mm. */
  lemma OversizedOnValid(p: Part)
    requires ValidDims(p.dims)
    ensures Oversized(p) <==> p.weight > HeavyLimit && p.dims.x1 > LargeLimit
  {
    LargeMeansX1(p.dims);
  }

  /** `parseInt(stueckzahl) || 1`: `None` is NaN; NaN and 0 become 1, anything else (negatives too) is kept. */
  function EffectiveQuantity(q: Option<int>): (n: int)
    ensures n != 0
    ensures q.Some? && q.value != 0 ==> n == q.value
    ensures q.None? || q.value == 0 ==> n == DefaultQuantity
  {
    match q
    case Some(v) => if v != 0 then v else DefaultQuantity
    case None => DefaultQuantity
  }

  /** The cost breakdown for `quantity` parts of the given weight and material. */
  function Costing(weight: real, m: Material, quantity: int): (c: Cost)
    requires quantity != 0
    ensures c.materialCost == weight * PricePerKg(m)
    ensures c.runtimeMinutes == MinutesPerKg * weight
    ensures c.fixedCost == SetupCost + ProgrammingCost
    ensures c.unitPriceFinal == Margin * c.unitPriceRaw
    ensures c.unitPriceRaw * quantity as real == c.materialCost + c.machiningCost + c.fixedCost
    ensures c.unitPriceFinal == (23.0 / 20.0) * (weight * (PricePerKg(m) + 7.0 / 6.0) + 90.0) / quantity as real
    ensures weight >= 0.0 && quantity > 0 ==> c.unitPriceFinal >= 103.5 / quantity as real
    ensures weight >= 0.0 && quantity < 0 ==> c.unitPriceFinal < 0.0
  {
    var materialCost := weight * PricePerKg(m);
    var runtimeMinutes := weight * MinutesPerKg;
    var runtimeHours := runtimeMinutes / 60.0;
    var machiningCost := runtimeHours * HourlyRate;
    var fixedCost := SetupCost + ProgrammingCost;
    var raw := (materialCost + machiningCost + fixedCost) / quantity as real;
    Cost(materialCost, runtimeMinutes, machiningCost, fixedCost, raw, raw * Margin)
  }

  /** The overprice gate. */
  predicate Overpriced(c: Cost) {
    c.unitPriceFinal > PriceLimit
  }

  // ---------------------------------------------------------------------------
  // The handler

  /**
   * The analysis of extracted drawing text with an optional requested
   * quantity (`None` when it is missing or not a number).
   */
  function Analyze(text: seq<char>, quantity: Option<int>): (r: Outcome)
    ensures r.Insufficient? <==> Inspect(text).None?
    ensures r.Escalated? && r.advisory == TooLarge <==> Inspect(text).Some? && Oversized(Inspect(text).value)
    ensures !r.Insufficient? ==> Inspect(text) == Some(r.part)
    ensures r.Escalated? ==> (r.price.None? <==> r.advisory == TooLarge)
    ensures r.Escalated? && r.advisory == TooExpensive ==>
      && !Oversized(r.part)
      && r.price == Some(Costing(r.part.weight, r.part.material, EffectiveQuantity(quantity)).unitPriceFinal)
      && r.price.value > PriceLimit
    ensures r.Full? ==>
      && !Oversized(r.part)
      && r.quantity == EffectiveQuantity(quantity)
      && r.cost == Costing(r.part.weight, r.part.material, r.quantity)
      && r.cost.unitPriceFinal <= PriceLimit
  {
    match Inspect(text)
    case None => Insufficient
    case Some(p) =>
      if Oversized(p) then Escalated(TooLarge, p, None)
      else
        var n := EffectiveQuantity(quantity);
        var c := Costing(p.weight, p.material, n);
        if Overpriced(c) then Escalated(TooExpensive, p, Some(c.unitPriceFinal)) else Full(p, c, n)
  }

  // ---------------------------------------------------------------------------
  // Properties of the handler

  /** The handler reads the requested quantity only through its effective value. */
  lemma QuantityOnlyThroughEffective(text: seq<char>, q1: Option<int>, q2: Option<int>)
    requires EffectiveQuantity(q1) == EffectiveQuantity(q2)
    ensures Analyze(text, q1) == Analyze(text, q2)
  {
  }

  /** A missing, non-numeric or zero quantity is answered exactly as a quantity of one. */
  lemma MissingQuantityActsAsOne(text: seq<char>)
    ensures Analyze(text, None) == Analyze(text, Some(0)) == Analyze(text, Some(1))
  {
    QuantityOnlyThroughEffective(text, None, Some(1));
    QuantityOnlyThroughEffective(text, Some(0), Some(1));
  }

  /** The oversize gate runs before costing, so the quantity never decides it. */
  lemma OversizeIgnoresQuantity(text: seq<char>, q1: Option<int>, q2: Option<int>)
    ensures Analyze(text, q1).Escalated? && Analyze(text, q1).advisory == TooLarge
        <==> Analyze(text, q2).Escalated? && Analyze(text, q2).advisory == TooLarge
    ensures Analyze(text, q1).Insufficient? <==> Analyze(text, q2).Insufficient?
  {
  }

  /** A part that gets a full estimate is at most 50 kg or has x1 at most 100 mm. */
  lemma FullIsLightOrSmall(text: seq<char>, quantity: Option<int>)
    requires Analyze(text, quantity).Full?
    ensures var p := Analyze(text, quantity).part;
      p.weight <= HeavyLimit || p.dims.x1 <= LargeLimit
  {
    var p := Analyze(text, quantity).part;
    LargeMeansX1(p.dims);
  }

  /** Ordering more parts never raises the unit price: the fixed costs are shared among them. */
  lemma MoreUnitsNoDearer(weight: real, m: Material, q1: int, q2: int)
    requires weight >= 0.0 && 0 < q1 <= q2
    ensures Costing(weight, m, q2).unitPriceFinal <= Costing(weight, m, q1).unitPriceFinal
  {
    var total := (23.0 / 20.0) * (weight * (PricePerKg(m) + 7.0 / 6.0) + 90.0);
    assert total > 0.0;
    DivideByLarger(total, q1 as real, q2 as real);
  }

  lemma DivideByLarger(x: real, a: real, b: real)
    requires x >= 0.0 && 0.0 < a <= b
    ensures x / b <= x / a
  {
    assert x / b * b == x == x / a * a;
    assert x / b * a <= x / b * b;
  }

  /** If an order is escalated for its price, so is every smaller positive order of the same text. */
  lemma OverpriceIsMonotone(text: seq<char>, q1: int, q2: int)
    requires 0 < q1 <= q2
    requires Analyze(text, Some(q2)).Escalated? && Analyze(text, Some(q2)).advisory == TooExpensive
    ensures Analyze(text, Some(q1)).Escalated? && Analyze(text, Some(q1)).advisory == TooExpensive
  {
    var r2 := Analyze(text, Some(q2));
    var p := r2.part;
    MoreUnitsNoDearer(p.weight, p.material, q1, q2);
    var r1 := Analyze(text, Some(q1));
    assert !r1.Insufficient? && !(r1.Escalated? && r1.advisory == TooLarge);
    assert Costing(p.weight, p.material, q1).unitPriceFinal > PriceLimit;
  }

  /** A negative quantity, which the handler passes through, yields a negative price and is never escalated for it. */
  lemma NegativeQuantityNeverOverpriced(text: seq<char>, q: int)
    requires q < 0
    ensures !(Analyze(text, Some(q)).Escalated? && Analyze(text, Some(q)).advisory == TooExpensive)
    ensures Analyze(text, Some(q)).Full? ==> Analyze(text, Some(q)).cost.unitPriceFinal < 0.0
  {
  }
}

=== FILE: rules.dfy ===
/** Ordered first-match rule lists, the form of both classifiers of the analysis handler. */
module Rules {
  import opened Wrappers

  /** The result of the first rule whose guard holds, or `None` when no guard holds. */
  function FirstMatch<G, R>(rules: seq<(G, R)>, holds: G -> bool): (r: Option<R>)
    ensures r.Some? <==> exists i :: 0 <= i < |rules| && holds(rules[i].0)
    ensures r.Some? ==> exists i :: && 0 <= i < |rules| && holds(rules[i].0) && rules[i].1 == r.value
                                    && forall j :: 0 <= j < i ==> !holds(rules[j].0)
  {
    if |rules| == 0 then None
    else if holds(rules[0].0) then Some(rules[0].1)
    else
      var r := FirstMatch(rules[1..], holds);
      assert forall i :: 1 <= i < |rules| ==> rules[1..][i - 1] == rules[i];
      r
  }
}

=== FILE: scenarios.dfy ===
/**
 * Worked examples of the analysis, on concrete text and concrete parts,
 * including the boundaries of both review gates.
 */
module Scenarios {
  import opened Wrappers
  import opened Text
  import opened Decimal
  import opened Dimensions
  import opened WeightScan
  import opened Geometry
  import opened Materials
  import opened Pipeline

  const MarkedText: string := "Ø20mm 150mm"

  lemma MarkedTextSecondMatch()
    ensures Scan(MarkedText, 6) == [Span(6, 9)]
  {
    assert DigitRun(MarkedText, 6) == 3;
    assert NumberEnd(MarkedText, 6) == 9;
    assert SuffixEnd(MarkedText, 9) == 11;
    assert Scan(MarkedText, 11) == [];
  }

  lemma MarkedTextFirstMatch()
    ensures NumberEnd(MarkedText, 1) == 3 && SuffixEnd(MarkedText, 3) == 5
  {
    assert DigitRun(MarkedText, 1) == 2;
  }

  lemma MarkedTextGap()
    ensures Scan(MarkedText, 5) == [Span(6, 9)]
  {
    assert !MatchStartsAt(MarkedText, 5);
    MarkedTextSecondMatch();
  }

  lemma MarkedTextScan()
    ensures Scan(MarkedText, 0) == [Span(0, 3), Span(6, 9)]
  {
    assert MatchStartsAt(MarkedText, 0) && !IsDigit(MarkedText[0]);
    MarkedTextFirstMatch();
    MarkedTextGap();
  }

  /**
   * A diameter written as "Ø20mm" is captured together with its mark and so
   * parses to NaN: with only "150mm" left the text has too few measurements.
   */
  lemma MarkedDiameterIsLost()
    ensures Analyze(MarkedText, None) == Insufficient
  {
    MarkedTextScan();
    var cs := Candidates(MarkedText);
    assert |cs| == 2 && cs[0] == None;
    assert |KeepInRange(cs)| <= 1 by {
      assert cs == [None, cs[1]];
      assert KeepInRange(cs) == KeepInRange([cs[1]]);
    }
    assert |Measurements(MarkedText)| < 2 by {
      assert |multiset(Measurements(MarkedText))| == |multiset(KeepInRange(cs))|;
    }
  }

  const TwoNumbers: string := "5 3"

  lemma TwoNumbersScan()
    ensures Scan(TwoNumbers, 0) == [Span(0, 1), Span(2, 3)]
  {
    assert NumberEnd(TwoNumbers, 0) == 1 && SuffixEnd(TwoNumbers, 1) == 2;
    assert NumberEnd(TwoNumbers, 2) == 3 && SuffixEnd(TwoNumbers, 3) == 3;
    assert Scan(TwoNumbers, 2) == [Span(2, 3)];
  }

  lemma SingleDigitValue(t: string, v: real)
    requires |t| == 1 && IsDigit(t[0]) && v == DigitValue(t[0]) as real
    ensures TokenValue(t) == Some(v)
  {
    assert ReplaceComma(t) == t;
    assert DigitRun(t, 0) == 1;
    assert t[..1] == t;
    assert DigitsValue(t[..0]) == 0;
  }

  lemma TwoNumbersCandidates()
    ensures Candidates(TwoNumbers) == [Some(5.0), Some(3.0)]
  {
    TwoNumbersScan();
    assert TwoNumbers[0..1] == "5" && TwoNumbers[2..3] == "3";
    assert Tokens(TwoNumbers) == ["5", "3"];
    SingleDigitValue("5", 5.0);
    SingleDigitValue("3", 3.0);
  }

  lemma KeepLast()
    ensures KeepInRange([Some(3.0)]) == [3.0]
  {
    assert [Some(3.0)][1..] == [];
  }

  lemma KeepBoth()
    ensures KeepInRange([Some(5.0), Some(3.0)]) == [5.0, 3.0]
  {
    assert [Some(5.0), Some(3.0)][1..] == [Some(3.0)];
    KeepLast();
  }

  lemma TwoNumbersMeasurements()
    ensures Measurements(TwoNumbers) == [5.0, 3.0]
  {
    TwoNumbersCandidates();
    KeepBoth();
    SortedUnique(SortDesc([5.0, 3.0]), [5.0, 3.0]);
  }

  /** With exactly two measurements the default third dimension 10 can exceed x2. */
  lemma DefaultThirdCanExceedSecond()
    ensures ExtractDims(TwoNumbers) == Some(Dims(5.0, 3.0, 10.0))
  {
    TwoNumbersMeasurements();
  }

  lemma TwelveAndAHalf()
    ensures DecimalValue("12", "5") == 12.5
  {
    assert DigitsValue("12") == 12 && DigitsValue("5") == 5;
    assert Pow10(1) == 10;
  }

  lemma CommaTexts()
    ensures "12" + [','] + "5" == "12,5" && "12" + ['.'] + "5" == "12.5"
  {
  }

  /** "12,5" and "12.5" are both twelve and a half. */
  lemma CommaExample()
    ensures ParseFloat(ReplaceComma("12,5")) == ParseFloat("12.5") == Some(12.5)
  {
    CommaAndDotAgree("12", "5");
    CommaTexts();
    TwelveAndAHalf();
  }

  /** Three 40 mm values make a cylinder: the x1 <= 50 rule comes before the plate/block rule. */
  lemma SmallCubeIsCylinder()
    ensures ClassifyShape(Dims(40.0, 40.0, 40.0), false) == Cylinder
  {
  }

  /**
   * The estimate for 2.5 kg of aluminium, one piece: material 17.50, 5 minutes,
   * machining 35/12, fixed 90, raw 1325/12 (about 110.42), final 6095/48 (about 126.98).
   */
  lemma AluminiumEstimate(text: seq<char>, p: Part)
    requires Inspect(text) == Some(p)
    requires p.material == Aluminium && p.weight == 2.5
    ensures Analyze(text, None) ==
      Full(p, Cost(17.5, 5.0, 35.0 / 12.0, 90.0, 1325.0 / 12.0, 6095.0 / 48.0), 1)
  {
    var c := Costing(2.5, Aluminium, 1);
    assert c.unitPriceFinal == 6095.0 / 48.0;
    assert c.unitPriceRaw == 1325.0 / 12.0;
    assert c.machiningCost == 35.0 / 12.0;
  }

  /** Exactly 50 kg is not heavy: the oversize gate compares strictly. */
  lemma FiftyKilogramsPass(p: Part)
    requires p.weight == 50.0
    ensures !Oversized(p)
  {
  }

  /** Just over 50 kg with a dimension just over 100 mm is oversize. */
  lemma JustOverBothLimits(shape: Shape, m: Material, v: real)
    ensures Oversized(Part(shape, Dims(100.01, 20.0, 10.0), m, v, 50.01))
  {
  }

  /** A final unit price of exactly 10000 is not escalated; one cent more is. */
  lemma PriceLimitBoundary(c: Cost, c': Cost)
    requires c.unitPriceFinal == 10000.0 && c'.unitPriceFinal == 10000.01
    ensures !Overpriced(c) && Overpriced(c')
  {
  }
}

=== FILE: text.dfy ===
/**
 * Character classes and string operations that the analysis handler borrows
 * from JavaScript: the `\d` and `\s` regular-expression classes, the diameter
 * sign, `String.prototype.toLowerCase` and `String.prototype.includes`.
 * Strings are sequences of Unicode scalar values.
 */
module Text {

  /** `\d`: an ASCII decimal digit. */
  predicate IsDigit(c: char) {
    '0' <= c <= '9'
  }

  /** The decimal separators `[\.,]` the patterns accept. */
  predicate IsSeparator(c: char) {
    c == '.' || c == ','
  }

  /** `\s`: the ECMAScript WhiteSpace and LineTerminator characters. */
  predicate IsSpace(c: char) {
    var n := c as int;
    || n == 0x09 || n == 0x0A || n == 0x0B || n == 0x0C || n == 0x0D
    || n == 0x20 || n == 0xA0 || n == 0x1680 || 0x2000 <= n <= 0x200A
    || n == 0x2028 || n == 0x2029 || n == 0x202F || n == 0x205F
    || n == 0x3000 || n == 0xFEFF
  }

  /** The diameter sign U+00D8, the character `text.includes("Ø")` looks for. */
  const DiameterSign: char := '\U{00D8}'

  /**
   * The characters the pattern `Ø` matches under the `i` flag: the diameter
   * sign and its lower-case form U+00F8, which case-insensitive matching
   * identifies with it.
   */
  predicate IsDiameterMark(c: char) {
    c == DiameterSign || c == '\U{00F8}'
  }

  /**
   * `toLowerCase` on one character, restricted to the characters whose lower
   * case is an ASCII letter: `A`..`Z` and the Kelvin sign U+212A, which lower-cases to `k`.
   */
  function Lower(c: char): (r: char)
    ensures !('A' <= r <= 'Z')
    ensures r != '\U{212A}'
    ensures IsDigit(r) <==> IsDigit(c)
    ensures c == '.' <==> r == '.'
    ensures 'A' <= c <= 'Z' ==> 'a' <= r <= 'z' && r as int == c as int + 32
    ensures c == '\U{212A}' ==> r == 'k'
    ensures !('A' <= c <= 'Z') && c != '\U{212A}' ==> r == c
  {
    if 'A' <= c <= 'Z' then (c as int + 32) as char
    else if c == '\U{212A}' then 'k'
    else c
  }

  function ToLower(s: seq<char>): (r: seq<char>)
    ensures |r| == |s|
    ensures forall i :: 0 <= i < |s| ==> r[i] == Lower(s[i])
  {
    seq(|s|, i requires 0 <= i < |s| => Lower(s[i]))
  }

  /** Lower-casing is idempotent, so classifying lower-cased text lower-cases nothing further. */
  lemma ToLowerIdempotent(s: seq<char>)
    ensures ToLower(ToLower(s)) == ToLower(s)
  {
  }

  /** `k` occurs in `s` starting at position `i`. */
  predicate OccursAt(s: seq<char>, k: seq<char>, i: int) {
    0 <= i && i + |k| <= |s| && s[i..i + |k|] == k
  }

  /** `s.includes(k)`: `k` occurs in `s` as a contiguous block. */
  predicate Contains(s: seq<char>, k: seq<char>) {
    exists i | 0 <= i <= |s| - |k| :: OccursAt(s, k, i)
  }

  /** A one-character block occurs exactly when the character does. */
  lemma ContainsSingle(s: seq<char>, c: char)
    ensures Contains(s, [c]) <==> c in s
  {
    if c in s {
      var i :| 0 <= i < |s| && s[i] == c;
      assert OccursAt(s, [c], i);
    }
    if Contains(s, [c]) {
      var i :| 0 <= i <= |s| - 1 && OccursAt(s, [c], i);
      assert s[i..i + 1][0] == s[i];
    }
  }

  /** An occurrence survives any text around it. */
  lemma ContainsInContext(a: seq<char>, s: seq<char>, b: seq<char>, k: seq<char>)
    requires Contains(s, k)
    ensures Contains(a + s + b, k)
  {
    var i :| 0 <= i <= |s| - |k| && OccursAt(s, k, i);
    var t := a + s + b;
    assert t[|a| + i..|a| + i + |k|] == s[i..i + |k|];
    assert OccursAt(t, k, |a| + i);
  }

  /** Every character of `ds` is a digit. */
  predicate AllDigits(ds: seq<char>) {
    forall i :: 0 <= i < |ds| ==> IsDigit(ds[i])
  }

  /** The length of the maximal run of digits that starts at position `i`: what a greedy `\d*` consumes there. */
  function DigitRun(s: seq<char>, i: nat): (n: nat)
    requires i <= |s|
    ensures i + n <= |s|
    ensures forall j :: i <= j < i + n ==> IsDigit(s[j])
    ensures i + n == |s| || !IsDigit(s[i + n])
    decreases |s| - i
  {
    if i < |s| && IsDigit(s[i]) then 1 + DigitRun(s, i + 1) else 0
  }
}

=== FILE: weight.dfy ===
/**
 * The weight extractor of the analysis handler: the first match of
 * `/(\d+[\.,]\d+)\s?kg/i` in the text, its group parsed after replacing the comma.
 */
module WeightScan {
  import opened Wrappers
  import opened Text
  import opened Decimal

  /** `kg`, either letter in either case, at position `k`. */
  predicate KgAt(s: seq<char>, k: int) {
    0 <= k && k + 2 <= |s| && (s[k] == 'k' || s[k] == 'K') && (s[k + 1] == 'g' || s[k + 1] == 'G')
  }

  /** `g` is `digits separator digits` split at `i`. */
  predicate SplitsAt(g: seq<char>, i: int) {
    0 < i < |g| - 1 && AllDigits(g[..i]) && IsSeparator(g[i]) && AllDigits(g[i + 1..])
  }

  /** The group `\d+[\.,]\d+`. */
  predicate IsWeightGroup(g: seq<char>) {
    exists i | 0 < i < |g| - 1 :: SplitsAt(g, i)
  }

  /** The whole pattern matches at `p`, its group being `s[p..k]`. */
  predicate MatchesAt(s: seq<char>, p: int, k: int) {
    && 0 <= p < k <= |s|
    && IsWeightGroup(s[p..k])
    && KgFollows(s, k)
  }

  /** The separator is the first non-digit of a weight group, so a group splits in one place only. */
  lemma SplitUnique(g: seq<char>, i: int, i': int)
    requires SplitsAt(g, i) && SplitsAt(g, i')
    ensures i == i'
  {
  }

  /** `kg` follows position `k`, directly or after one `\s` character. */
  predicate KgFollows(s: seq<char>, k: int) {
    KgAt(s, k) || (0 <= k < |s| && IsSpace(s[k]) && KgAt(s, k + 1))
  }

  /**
   * Any match at `p` is the one the greedy attempt finds: the first digit run
   * is maximal, a separator follows it, and the second digit run is maximal too.
   */
  lemma MatchIsGreedy(s: seq<char>, p: nat, k: int)
    requires MatchesAt(s, p, k)
    ensures var j := p + DigitRun(s, p);
      && j > p && j < |s| && IsSeparator(s[j])
      && DigitRun(s, j + 1) > 0 && k == j + 1 + DigitRun(s, j + 1)
  {
    var g := s[p..k];
    var i :| SplitsAt(g, i);
    assert SplitsAt(g, i);
    assert forall q :: p <= q < k ==> g[q - p] == s[q];
    var n := DigitRun(s, p);
    assert n == i;
    var j := p + n;
    assert g[i + 1..][0] == s[j + 1];
  }

  /** The greedy attempt at `p`, when its pieces are present, is a match. */
  lemma GreedyIsMatch(s: seq<char>, p: nat)
    requires p <= |s|
    requires var j := p + DigitRun(s, p);
      && j > p && j < |s| && IsSeparator(s[j]) && DigitRun(s, j + 1) > 0
      && KgFollows(s, j + 1 + DigitRun(s, j + 1))
    ensures var j := p + DigitRun(s, p); MatchesAt(s, p, j + 1 + DigitRun(s, j + 1))
  {
    var n := DigitRun(s, p);
    var j := p + n;
    var k := j + 1 + DigitRun(s, j + 1);
    var g := s[p..k];
    assert forall q :: p <= q < k ==> g[q - p] == s[q];
    assert g[..n] == s[p..j];
    assert g[n + 1..] == s[j + 1..k];
    assert SplitsAt(g, n);
  }

  /** The pattern matches at `p` exactly when the greedy attempt succeeds, and then only with that group. */
  lemma MatchesAtIff(s: seq<char>, p: nat)
    requires p <= |s|
    ensures forall k :: MatchesAt(s, p, k) <==>
      var j := p + DigitRun(s, p);
      && j > p && j < |s| && IsSeparator(s[j]) && DigitRun(s, j + 1) > 0
      && k == j + 1 + DigitRun(s, j + 1) && KgFollows(s, k)
  {
    forall k ensures MatchesAt(s, p, k) <==>
      var j := p + DigitRun(s, p);
      && j > p && j < |s| && IsSeparator(s[j]) && DigitRun(s, j + 1) > 0
      && k == j + 1 + DigitRun(s, j + 1) && KgFollows(s, k)
    {
      if MatchesAt(s, p, k) {
        MatchIsGreedy(s, p, k);
      } else {
        var j := p + DigitRun(s, p);
        if j > p && j < |s| && IsSeparator(s[j]) && DigitRun(s, j + 1) > 0 && KgFollows(s, j + 1 + DigitRun(s, j + 1)) {
          GreedyIsMatch(s, p);
        }
      }
    }
  }

  /** The regular expression's attempt at position `p`: the end of the captured group when it matches there. */
  function TryAt(s: seq<char>, p: nat): (r: Option<nat>)
    requires p <= |s|
    ensures r.Some? ==> MatchesAt(s, p, r.value)
    ensures r.Some? ==> forall k :: MatchesAt(s, p, k) ==> k == r.value
    ensures r.None? ==> forall k :: !MatchesAt(s, p, k)
  {
    MatchesAtIff(s, p);
    var n := DigitRun(s, p);
    var j := p + n;
    if n == 0 || j >= |s| || !IsSeparator(s[j]) then None
    else
      var m := DigitRun(s, j + 1);
      var k := j + 1 + m;
      if m > 0 && KgFollows(s, k) then Some(k) else None
  }

  /** The leftmost match at or after `p`, as the bounds of its group. */
  function FindFrom(s: seq<char>, p: nat): (r: Option<(nat, nat)>)
    requires p <= |s|
    ensures r.Some? ==> p <= r.value.0 && MatchesAt(s, r.value.0, r.value.1)
    ensures r.Some? ==> forall q, k :: p <= q < r.value.0 ==> !MatchesAt(s, q, k)
    ensures r.None? ==> forall q, k :: p <= q ==> !MatchesAt(s, q, k)
    decreases |s| - p
  {
    if p == |s| then None
    else
      match TryAt(s, p)
      case Some(k) => Some((p, k))
      case None => FindFrom(s, p + 1)
  }

  /** `parseFloat(group.replace(",", "."))`: the decimal the group spells, whichever separator it uses. */
  function GroupValue(g: seq<char>): (v: real)
    requires IsWeightGroup(g)
    ensures forall i :: SplitsAt(g, i) ==> v == DecimalValue(g[..i], g[i + 1..])
    ensures v >= 0.0
  {
    GroupParses(g);
    ParseFloat(ReplaceComma(g)).value
  }

  lemma GroupParses(g: seq<char>)
    requires IsWeightGroup(g)
    ensures IsNumericText(ReplaceComma(g))
    ensures forall i :: SplitsAt(g, i) ==> ParseFloat(ReplaceComma(g)) == Some(DecimalValue(g[..i], g[i + 1..]))
  {
    var i :| SplitsAt(g, i);
    assert SplitsAt(g, i);
    var a, b := g[..i], g[i + 1..];
    if g[i] == ',' {
      assert g == a + [','] + b;
      CommaAndDotAgree(a, b);
    } else {
      assert g == a + ['.'] + b;
      ParseDotted(a, b);
      NoCommaUnchanged(g);
    }
    forall i' | SplitsAt(g, i') ensures i' == i { SplitUnique(g, i, i'); }
  }

  /**
   * The explicit weight: the value of the first match in text order, or
   * `None` when the pattern matches nowhere.
   */
  function ExplicitWeight(s: seq<char>): (r: Option<real>)
    ensures r.None? <==> forall q, k :: !MatchesAt(s, q, k)
    ensures r.Some? ==> exists p, k :: && MatchesAt(s, p, k)
                                       && (forall q, k' :: q < p ==> !MatchesAt(s, q, k'))
                                       && r.value == GroupValue(s[p..k])
    ensures r.Some? ==> r.value >= 0.0
  {
    match FindFrom(s, 0)
    case None => None
    case Some((p, k)) => Some(GroupValue(s[p..k]))
  }

  /** Every match holds a decimal separator strictly between two digits, so `"2 kg"` never matches. */
  lemma MatchNeedsSeparator(s: seq<char>, p: int, k: int)
    requires MatchesAt(s, p, k)
    ensures exists j :: p < j < k - 1 && IsSeparator(s[j]) && IsDigit(s[j - 1]) && IsDigit(s[j + 1])
  {
    var g := s[p..k];
    var i :| 0 < i < |g| - 1 && SplitsAt(g, i);
    assert SplitsAt(g, i);
    assert g[..i][i - 1] == g[i - 1] && g[i + 1..][0] == g[i + 1];
    assert s[p + i] == g[i] && s[p + i - 1] == g[i - 1] && s[p + i + 1] == g[i + 1];
  }

  /** Without a decimal separator there is no explicit weight. */
  lemma NoSeparatorNoWeight(s: seq<char>)
    requires forall i :: 0 <= i < |s| ==> !IsSeparator(s[i])
    ensures ExplicitWeight(s) == None
  {
    forall p, k | MatchesAt(s, p, k) ensures false {
      MatchNeedsSeparator(s, p, k);
    }
  }
}

=== FILE: wrappers.dfy ===
/** Optional values: `None` stands for JavaScript's `null` or `NaN`, depending on where it is used. */
module Wrappers {
  datatype Option<+T> = None | Some(value: T)
}
